=== FILE: README.md ===
# Mushroom classifier: encoding, alignment and decoding, verified

This project is a Dafny model of the core of a small mushroom-toxicity
application. The core is made of two parts.

- `MushroomClassifier` (`poison_analysis/poison_model.py`) trains a decision
  tree on five categorical features of the UCI mushroom dataset. It keeps one
  label encoder per feature and one for the target column `poisonous`. Its
  `predict` checks that the query has five entries and encodes every code in
  the fixed feature order. A code never seen in training becomes 0. The method
  then asks the tree and decodes the answer back to `e` (edible) or `p`
  (poisonous). Its `visualize_tree` shades every node of the plotted tree
  after the node's majority class, with an alpha that grows with purity.
  Before training, the constructor looks for the dataset next to the module
  and then at the path it was given.
- The dataset setup script (`data/setup_dataset.py`) obtains `mushrooms.csv`,
  either by download or from `mushroom.zip`. From the archive it takes the
  first `.csv` member, or failing that the first `.data` member. Only when
  this succeeds does it copy the file into the project folders that exist.

Modules:

- `Wrappers` (`wrappers.dfy`): `Option` and `Result`.
- `Strings` (`strings.dfy`): Python's ordering of strings (code point
  lexicographic), `str.endswith`, and the facts about sorted and distinct
  sequences that the encoder needs.
- `Encoding` (`encoding.dfy`): a fitted `LabelEncoder` is its `classes_`, the
  strictly increasing sequence of the distinct training values. `transform` is
  the index in it and `inverse_transform` the element at an index.
- `Paths` (`paths.dfy`): `os.path.basename`, `dirname` and `join` on POSIX paths.
- `Shading` (`shading.dfy`): the node-shading rule, which picks the majority
  class, its purity and the fill's alpha.
- `PoisonModel` (`poison_model.dfy`): the class `MushroomClassifier` with the
  fields `model`, `dizionarioEncoders` and `leTarget`, and its constructor and
  the methods `Train`, `Predict` and `VisualizeTree`. Beside the class are the
  functions that specify them and the lemmas about those functions.
- `SetupDataset` (`setup_dataset.dfy`): the class `FileSystem`, whose state is
  the set of paths that exist and the list of folders the dataset was copied
  into. Its methods model `download_from_url`, `extract_from_zip`,
  `copy_csv_to_projects` and `main`.

The decision tree is a parameter of type `Learner`: a deterministic function
from the encoded matrix and the encoded target to a tree, which maps an encoded
row to a target index. `SoundLearner` states the one thing the model relies on:
a fitted tree only predicts labels that occur in its training target. The
files the classifier can read are a map from path to table, and a path "exists"
when it is a key of that map. An exception raised by the constructor is kept
in the field `raised`; in Python the half-built object is never returned.

## Model

| member | source | states |
|---|---|---|
| `Encoding.Fit` | poison_analysis/poison_model.py:84-90 | the classes of a fitted encoder are strictly increasing, are exactly the set of training values, and are no more numerous than the values |
| `Strings.Less` | poison_analysis/poison_model.py:87 | the order `LabelEncoder` sorts its classes by: a string is never smaller than itself, and a proper prefix is smaller than the string it starts |
| `Strings.LessIrreflexive` | poison_analysis/poison_model.py:87 | no string is smaller than itself |
| `Strings.LessTransitive` | poison_analysis/poison_model.py:87 | the string order is transitive |
| `Strings.LessTotal` | poison_analysis/poison_model.py:87 | of two different strings one is smaller, so the sorted classes are unique |
| `Strings.EndsWith` | data/setup_dataset.py:83-91 | `str.endswith`: a string ends with a suffix only if the suffix is no longer than the string, and a non-empty suffix's last character is then the string's last character |
| `Encoding.SortedUnique` | poison_analysis/poison_model.py:84-90 | two strictly increasing sequences with the same elements are equal, so an encoder's classes are determined by the set of its values |
| `Encoding.FitDependsOnlyOnValues` | poison_analysis/poison_model.py:84-90 | fitting on two columns with the same set of values gives the same classes, whatever the row order or repetitions |
| `Encoding.Transform` | poison_analysis/poison_model.py:118 | a code among the classes encodes to an index below the number of classes whose class is that code |
| `Encoding.InverseTransform` | poison_analysis/poison_model.py:128 | decoding an index below the number of classes yields one of the classes |
| `Encoding.InverseThenTransform` | poison_analysis/poison_model.py:115-128 | on a fitted encoder, decoding an index and encoding the result gives the index back, so encoding is a bijection between the classes and their indices |
| `Encoding.TransformIsRank` | poison_analysis/poison_model.py:87 | the code of a class is its rank: the number of classes below it in string order |
| `Encoding.FitTransform` | poison_analysis/poison_model.py:87 | `fit_transform` gives one code per row, each below the number of classes and decoding to that row's value |
| `Encoding.EncodeOrDefault` | poison_analysis/poison_model.py:115-118 | a code seen in training gets its index, which decodes back to it |
| `Encoding.FitTransformAgreesWithEncoding` | poison_analysis/poison_model.py:87-118 | the code `fit_transform` gives a training value is the code `predict` gives the same value later |
| `Encoding.UnseenCodeEncodesAsSmallest` | poison_analysis/poison_model.py:115-116 | an unseen code does not fail; it encodes to 0, which is also the code of the smallest training value, and that value is at most every training value |
| `Encoding.SeenCodeRoundTrip` | poison_analysis/poison_model.py:115-128 | a code seen in training encodes to an index below the number of classes that decodes back to the code |
| `Encoding.EdiblePoisonousCodes` | poison_analysis/poison_model.py:89-90 | with targets `e` and `p` the target classes are `["e", "p"]`: `e` encodes to 0, `p` to 1, and both decode back |
| `Paths.Basename` | poison_analysis/poison_model.py:65 | the basename contains no `/` and is a suffix of the path |
| `Paths.JoinKeepsBasename` | poison_analysis/poison_model.py:64-65 | joining a folder with a bare file name gives a path whose basename is that name |
| `Paths.Dirname` | poison_analysis/poison_model.py:64 | the folder is a prefix of the path, ends without `/` unless it is made of separators only, and is empty for a path without `/` |
| `Paths.DirnameOfJoin` | poison_analysis/poison_model.py:64-65 | the folder of a bare file name joined into a folder without a trailing `/` is that folder again |
| `Paths.JoinParts` | poison_analysis/poison_model.py:65 | an absolute second part replaces the first; otherwise the join starts with the first part, ends with the second, and puts exactly one `/` between them when the first part lacks one |
| `Paths.Join` | poison_analysis/poison_model.py:65 | `os.path.join` of two parts; its shape is proved in `Paths.JoinParts`: an absolute second part replaces the first, otherwise the first part, one `/` when it lacks a trailing one, and the second part |
| `PoisonModel.FeaturesDistinct` | poison_analysis/poison_model.py:38-44 | the five feature names are pairwise different |
| `PoisonModel.DatasetCandidate` | poison_analysis/poison_model.py:63-64 | the path tried first, the file name of `csv_path` joined to the module's folder; its shape is proved in `PoisonModel.DatasetCandidateParts` |
| `PoisonModel.DatasetCandidateParts` | poison_analysis/poison_model.py:63-64 | the path tried first has the basename of `csv_path` and starts with the module's folder |
| `PoisonModel.ResolveDatasetPath` | poison_analysis/poison_model.py:63-68 | the dataset is looked for next to the module first and at `csv_path` otherwise, and both paths have the basename of `csv_path` |
| `PoisonModel.NotFoundMessage` | poison_analysis/poison_model.py:72-73 | the re-raised message contains the requested file name right after its fixed prefix |
| `PoisonModel.Reraised` | poison_analysis/poison_model.py:69-73 | the constructor raises exactly when `_train` does; a missing file stays a missing file and is reported with the message naming `basename(csv_path)`; every other error passes through unchanged |
| `PoisonModel.NotFoundOnlyWhenNowhere` | poison_analysis/poison_model.py:63-73 | the constructor reports a missing file exactly when neither candidate path exists, and the report names `basename(csv_path)` |
| `PoisonModel.MissingColumns` | poison_analysis/poison_model.py:80 | the KeyError of the feature selection lists exactly the requested features the dataset lacks |
| `PoisonModel.TrainError` | poison_analysis/poison_model.py:75-97 | `_train` raises nothing exactly when the file exists with every feature column, the target column and at least one row; it raises file-not-found exactly when the file is missing; a KeyError lists only absent requested columns |
| `PoisonModel.InitError` | poison_analysis/poison_model.py:63-73 | the constructor succeeds exactly when the resolved path holds a trainable dataset, and every error other than a missing file is `_train`'s own |
| `PoisonModel.FittedTreeInRange` | poison_analysis/poison_model.py:89-97 | a tree fitted on a non-empty encoded target predicts only indices of the target encoder |
| `PoisonModel.DecodedIsTrainingLabel` | poison_analysis/poison_model.py:125-128 | decoding a valid target index yields a label that occurs in the training targets |
| `PoisonModel.EncodingStep` | poison_analysis/poison_model.py:84-87 | encoding one more feature column appends its codes to the encoded columns and adds its encoder to the encoder map |
| `PoisonModel.EncodeFeatures` | poison_analysis/poison_model.py:84-87 | the encoding loop of `_train` yields, in feature order, the `fit_transform` of every feature column and the map from each feature to its fitted encoder |
| `PoisonModel.EncodedColumns` | poison_analysis/poison_model.py:83-86 | one encoded column per feature, each with one code per dataset row |
| `PoisonModel.EncodedColumnsDecode` | poison_analysis/poison_model.py:83-86 | entry r of encoded column k is a valid code of feature k's encoder and its class is the dataset's value of feature k in row r |
| `PoisonModel.TrainingMatrix` | poison_analysis/poison_model.py:83-96 | the matrix the tree is fitted on has one row per dataset row and one entry per feature |
| `PoisonModel.TrainingMatrixDecodes` | poison_analysis/poison_model.py:83-96 | decoding entry (r, k) of the training matrix with feature k's encoder gives the dataset's value of feature k in row r |
| `PoisonModel.FirstMissing` | poison_analysis/poison_model.py:111-112 | finds the first feature, in feature order, that the query lacks, or reports that none is missing |
| `PoisonModel.EncodeRow` | poison_analysis/poison_model.py:105-120 | the encoded row has one entry per feature, in feature order, and entry k is the encoding by feature k's encoder of the query's value for feature k |
| `PoisonModel.EncodeQuery` | poison_analysis/poison_model.py:105-120 | the query fails exactly when some feature is absent, and then with a KeyError naming an absent feature; otherwise the row has one entry per feature |
| `PoisonModel.PredictOutcome` | poison_analysis/poison_model.py:99-130 | a query of the wrong size fails with the size error, and any answer is one of the target classes |
| `PoisonModel.EncodeInput` | poison_analysis/poison_model.py:105-120 | the encoding loop of `predict` stops with a KeyError at the first absent feature, otherwise returns the feature-ordered encoded row |
| `PoisonModel.WrongKeyRaisesKeyError` | poison_analysis/poison_model.py:102-112 | a query with five entries but a wrong key passes the size check and fails with a KeyError naming a feature it lacks |
| `PoisonModel.ExtraKeyRejected` | poison_analysis/poison_model.py:102-103 | a query with every feature plus one other key fails the size check |
| `PoisonModel.CompleteInputPredicts` | poison_analysis/poison_model.py:102-128 | a query whose keys are exactly the features is always answered, even with unseen codes, with the decoded tree prediction on its encoded row |
| `PoisonModel.UnseenCodeAnswersAsSmallest` | poison_analysis/poison_model.py:115-125 | replacing an unseen code by the smallest training value of its feature does not change the outcome |
| `PoisonModel.TrainingRowEncodesAsTrained` | poison_analysis/poison_model.py:84-120 | a query holding the codes of a training row encodes to the row of the training matrix the tree was fitted on |
| `PoisonModel.PredictOnTrainingRow` | poison_analysis/poison_model.py:75-130 | querying with a training row returns the decoded tree prediction on that row, and the row's own label when the tree reproduces it |
| `PoisonModel.ClassColor` | poison_analysis/poison_model.py:158 | only `e` and `p` have a colour; `e` gets `#5D8053`, `p` gets the other of the two plot colours, `#C63636`, so the two classes are never drawn alike |
| `PoisonModel.PaintNode` | poison_analysis/poison_model.py:163-197 | a node is left unfilled exactly when it has no counts or its counts sum to 0; a failure is the KeyError for a majority class without a colour; a fill is for that node, in the table colour of its majority class, with an alpha in [0.6, 1] |
| `PoisonModel.Paint` | poison_analysis/poison_model.py:161-197 | the rendering of a trained model is never the untrained outcome; its fills name nodes in strictly increasing order, each an existing node, so no node gets two fills and there are no more fills than nodes |
| `PoisonModel.PaintFailurePersists` | poison_analysis/poison_model.py:186-189 | once a node's majority class has no colour the rendering stops, and later nodes do not change that |
| `PoisonModel.PaintLast` | poison_analysis/poison_model.py:161-197 | a completed rendering is the rendering of all but the last node, plus the last node's fill when its counts do not sum to 0 |
| `PoisonModel.PaintedFillsSound` | poison_analysis/poison_model.py:183-197 | every fill of a completed rendering is its node's shading, and fills come in node order |
| `PoisonModel.PaintedFillsComplete` | poison_analysis/poison_model.py:183-197 | every node whose counts do not sum to 0 gets a fill |
| `PoisonModel.PaintedFills` | poison_analysis/poison_model.py:158-197 | a completed rendering has one fill exactly for each node whose counts do not sum to 0, in node order, with the colour of `e` or `p` and an alpha in [0.6, 1] |
| `PoisonModel.EdiblePoisonousAlwaysPainted` | poison_analysis/poison_model.py:158-189 | with target classes `e` and `p` no colour lookup fails |
| `PoisonModel.MushroomClassifier.constructor` | poison_analysis/poison_model.py:22-73 | the constructor resolves the dataset path and trains; it raises exactly what `_train` raises, with a missing file reported under the requested name, and on success the model is the tree fitted on the encoded dataset |
| `PoisonModel.MushroomClassifier.Train` | poison_analysis/poison_model.py:75-97 | `_train` raises for a missing file, missing feature columns, a missing target column or an empty dataset; otherwise it stores one encoder per feature, the target encoder and the tree fitted on the encoded matrix |
| `PoisonModel.MushroomClassifier.Predict` | poison_analysis/poison_model.py:99-130 | `predict` fails with the size error when the query does not have five entries, follows `PredictOutcome` otherwise, and any answer is a label of the training targets |
| `PoisonModel.MushroomClassifier.VisualizeTree` | poison_analysis/poison_model.py:133-197 | without a trained model nothing is drawn; otherwise the nodes are painted as `Paint` prescribes |
| `Shading.ArgMax` | poison_analysis/poison_model.py:187 | the majority index holds the largest count, and every earlier index holds a smaller one |
| `Shading.Sum` | poison_analysis/poison_model.py:183 | the total of a node is 0 exactly when every class count is 0 |
| `Shading.CountAtMostSum` | poison_analysis/poison_model.py:192 | no count exceeds the node's total |
| `Shading.LargestCountPositive` | poison_analysis/poison_model.py:183-187 | a node whose counts do not sum to 0 has a positive largest count |
| `Shading.Share` | poison_analysis/poison_model.py:192 | the purity lies in (0, 1] and, multiplied by the total, gives the largest count |
| `Shading.Alpha` | poison_analysis/poison_model.py:193 | for a purity in [0, 1] the alpha lies in [0.6, 1], and it is 1 for a pure node |
| `Shading.AlphaMonotonic` | poison_analysis/poison_model.py:193 | a higher purity never gives a lower alpha |
| `Shading.NodeShade` | poison_analysis/poison_model.py:183-193 | a node is skipped exactly when its counts sum to 0; otherwise its colour index is the first argmax, its purity is the largest count's share and its alpha lies in [0.6, 1] |
| `Shading.ShareAtLeastHalf` | poison_analysis/poison_model.py:192 | a largest count that is at least half of the total gives a purity of at least 0.5 |
| `Shading.TwoClassPurityAtLeastHalf` | poison_analysis/poison_model.py:187-192 | with two classes a node with samples has a purity of at least 0.5 |
| `SetupDataset.Destinations` | data/setup_dataset.py:129-132 | two project folders receive copies, tried in this order |
| `SetupDataset.FirstEndingWith` | data/setup_dataset.py:82-93 | finds the first member name with the suffix, or reports that none has it |
| `SetupDataset.Select` | data/setup_dataset.py:78-97 | a chosen member is in the list, its flag is true exactly when it ends with `.csv`, it ends with `.data` otherwise, and nothing is chosen exactly when no name has either suffix |
| `SetupDataset.DataIsNotCsv` | data/setup_dataset.py:83-91 | a name ending with `.data` does not end with `.csv` |
| `SetupDataset.CsvPreferred` | data/setup_dataset.py:81-93 | the first `.csv` member is chosen and read with a header, even when a `.data` member comes before it |
| `SetupDataset.DataFallback` | data/setup_dataset.py:88-93 | without a `.csv` member, the first `.data` member is chosen and read without a header |
| `SetupDataset.CsvAfterDataExample` | data/setup_dataset.py:81-93 | an archive listing a `.names`, a `.data` and then a `.csv` member yields the `.csv` one |
| `SetupDataset.ChooseMember` | data/setup_dataset.py:78-97 | the two searches with `break` choose the member `Select` prescribes |
| `SetupDataset.CopyTargets` | data/setup_dataset.py:135-144 | the copies made are no more than the destinations |
| `SetupDataset.CopyTargetsMembers` | data/setup_dataset.py:135-144 | a folder receives a copy exactly when it is a destination, it exists and its copy does not fail |
| `SetupDataset.MissingFolderSkipped` | data/setup_dataset.py:135-138 | a destination that does not exist never receives a copy |
| `SetupDataset.DestinationNotACopy` | data/setup_dataset.py:129-141 | the copied files are not destination folders, so copying into one folder never makes a later one exist |
| `SetupDataset.CopyStep` | data/setup_dataset.py:135-144 | one pass of the copy loop appends the destination exactly when it exists and its copy succeeds, and adds the dataset file inside it |
| `SetupDataset.FileSystem.DownloadFromUrl` | data/setup_dataset.py:37-65 | the CSV appears exactly when the download succeeds, and nothing is copied |
| `SetupDataset.FileSystem.ExtractFromZip` | data/setup_dataset.py:68-121 | a missing archive fails before anything is opened, an unreadable one fails, otherwise the chosen member is the one `Select` prescribes; it succeeds exactly when a member is chosen and converted, and only then does the CSV appear |
| `SetupDataset.FileSystem.CopyCsvToProjects` | data/setup_dataset.py:123-144 | without the CSV nothing happens; otherwise the folders copied into are the existing destinations whose copy succeeds, in order, and each gets the dataset file |
| `SetupDataset.FileSystem.RunSetup` | data/setup_dataset.py:148-173 | the data folder exists afterwards; the paths that exist become the old ones plus the data folder and, only after a successful download or extraction, the CSV and one copy inside each folder `CopyCsvToProjects` copies into; nothing is copied otherwise |

## Left out

- Decision-tree fitting and inference come from scikit-learn, which is not part of this model. The tree is the `Learner` parameter, and the only fact assumed about it is `SoundLearner`.
- Reading the CSV with pandas is not modelled: type inference, missing values and duplicate column names. A table is a map from column name to a column of strings.
- A missing column raises a pandas KeyError whose message lists the missing names. The model keeps only the list of names, in feature order.
- An empty dataset makes scikit-learn's `fit` raise a ValueError after `self.model` already holds an unfitted classifier. The model reports `EmptyTrainingSet` and leaves `model` unset; no caller can tell the difference, because the constructor raises.
- `os.path.exists` is also true for directories. The classifier's file map holds only readable datasets.
- `os.path.abspath` and the normalisation of `..` in `PROJECT_ROOT` are not modelled. The data folder and the project root are parameters.
- Paths follow POSIX `os.path` (`posixpath`) only. On Windows `ntpath` also treats `\` as a separator and knows drive letters, and `Paths.Basename`, `Paths.Dirname` and `Paths.Join` do not model that.
- The `visualize_tree` plotting is not modelled: `plot_tree`, figure size, title, `savefig` and its errors. Nor is the parsing of counts out of node text with a regular expression and `float`. Each node comes in as its integer class counts, or as None when it is skipped as text without counts.
- Counts are integers and purity is an exact real, whereas numpy computes in floating point.
- The Italian menu and name tables (`menu_opzioni`, `nomi_features_ita`) are constant data read only by the GUI, which is not part of this model.
- The download, the ZIP archive's contents and every write (`to_csv`, `shutil.copy`) are parameters. A write that fails halfway is taken to leave no file behind.
- The `.data` fallback names its target column `class`, but the classifier reads `poisonous`. The model of the script does not follow the file's columns, so this mismatch is not captured.
- Printing and the command-line parser are not modelled. `--zip` is the boolean `useZip`.
- `visualization/`, `backup/` and `poison_analysis/test_stats.py` are not part of this model.

=== FILE: encoding.dfy ===
/** The categorical encoder the classifier keeps per feature and for the
    target. A fitted encoder is its `classes_`: the distinct training values in
    increasing order. `transform` maps a value to its index in that sequence and
    `inverse_transform` maps an index back to the value. */
module Encoding {
  import opened Strings

  /** Inserts `x` into a strictly increasing sequence, keeping it strictly
      increasing and without duplicates. */
  function Insert(classes: seq<string>, x: string): (r: seq<string>)
    requires StrictlySorted(classes)
    ensures StrictlySorted(r)
    ensures Elements(r) == Elements(classes) + {x}
    ensures |r| <= |classes| + 1
  {
    if classes == [] then [x]
    else if x == classes[0] then
      assert Elements(classes) == Elements(classes) + {x};
      classes
    else if Less(x, classes[0]) then
      PrependSmaller(x, classes);
      assert Elements([x] + classes) == {x} + Elements(classes);
      [x] + classes
    else
      LessTotal(x, classes[0]);
      var rest := Insert(classes[1..], x);
      assert Elements(classes) == {classes[0]} + Elements(classes[1..]);
      PrependHead(classes, rest, x);
      assert Elements([classes[0]] + rest) == {classes[0]} + Elements(rest);
      [classes[0]] + rest
  }

  /** A value below the head of a strictly increasing sequence may be put in front. */
  lemma PrependSmaller(x: string, s: seq<string>)
    requires StrictlySorted(s) && s != [] && Less(x, s[0])
    ensures StrictlySorted([x] + s)
  {
    forall j | 0 < j < |s|
      ensures Less(x, s[j])
    {
      LessTransitive(x, s[0], s[j]);
    }
  }

  lemma PrependHead(classes: seq<string>, rest: seq<string>, x: string)
    requires StrictlySorted(classes) && classes != [] && StrictlySorted(rest)
    requires Less(classes[0], x)
    requires Elements(rest) == Elements(classes[1..]) + {x}
    ensures StrictlySorted([classes[0]] + rest)
  {
    var r := [classes[0]] + rest;
    forall i, j | 0 <= i < j < |r|
      ensures Less(r[i], r[j])
    {
      if i == 0 {
        assert r[j] in Elements(rest);
        if r[j] != x {
          var k :| 1 <= k < |classes| && classes[k] == r[j];
        }
      }
    }
  }

  /** `LabelEncoder.fit`: the sorted distinct values of a training column. */
  function Fit(values: seq<string>): (classes: seq<string>)
    ensures StrictlySorted(classes)
    ensures Elements(classes) == Elements(values)
    ensures |classes| <= |values|
  {
    if values == [] then []
    else
      assert Elements(values) == {values[0]} + Elements(values[1..]);
      Insert(Fit(values[1..]), values[0])
  }

  /** Two strictly increasing sequences with the same elements are equal: the
      classes of an encoder depend only on the set of training values. */
  lemma {:induction false} SortedUnique(a: seq<string>, b: seq<string>)
    requires StrictlySorted(a) && StrictlySorted(b)
    requires Elements(a) == Elements(b)
    ensures a == b
  {
    ElementsEmpty(a);
    ElementsEmpty(b);
    if a != [] {
      assert a[0] in Elements(b);
      assert b != [];
      assert b[0] in Elements(a);
      if a[0] != b[0] {
        var k :| 0 < k < |b| && b[k] == a[0];
        var m :| 0 < m < |a| && a[m] == b[0];
        LessAsymmetric(a[0], a[m]);
      }
      SortedIsDistinct(a);
      SortedIsDistinct(b);
      assert Elements(a) == {a[0]} + Elements(a[1..]);
      assert Elements(b) == {b[0]} + Elements(b[1..]);
      assert a[0] !in Elements(a[1..]);
      assert b[0] !in Elements(b[1..]);
      assert Elements(a[1..]) == Elements(b[1..]);
      SortedUnique(a[1..], b[1..]);
      assert a == [a[0]] + a[1..] && b == [b[0]] + b[1..];
    }
  }

  /** Fitting is deterministic in the set of values: neither the order of the
      training rows nor repetitions change the classes. */
  lemma FitDependsOnlyOnValues(v: seq<string>, w: seq<string>)
    requires Elements(v) == Elements(w)
    ensures Fit(v) == Fit(w)
  {
    SortedUnique(Fit(v), Fit(w));
  }

  /** `LabelEncoder.transform` of one value that is among the classes. */
  function Transform(classes: seq<string>, code: string): (i: nat)
    requires code in classes
    ensures i < |classes| && classes[i] == code
  {
    if classes[0] == code then 0 else 1 + Transform(classes[1..], code)
  }

  /** `LabelEncoder.inverse_transform` of one index. */
  function InverseTransform(classes: seq<string>, i: nat): (code: string)
    requires i < |classes|
    ensures code in classes
  {
    classes[i]
  }

  /** Encoding then decoding gives back any index: together with the
      postcondition of Transform, the encoder is a bijection between its classes
      and 0 .. |classes| - 1. */
  lemma InverseThenTransform(classes: seq<string>, i: nat)
    requires StrictlySorted(classes) && i < |classes|
    ensures Transform(classes, InverseTransform(classes, i)) == i
  {
    SortedIsDistinct(classes);
  }

  /** The classes strictly below `code`. */
  ghost function Below(classes: seq<string>, code: string): set<string>
  {
    set c | c in classes && Less(c, code)
  }

  /** The index of a class is its rank: the number of classes strictly below it. */
  lemma TransformIsRank(classes: seq<string>, code: string)
    requires StrictlySorted(classes) && code in classes
    ensures Transform(classes, code) == |Below(classes, code)|
  {
    var i := Transform(classes, code);
    var below := Below(classes, code);
    forall c | c in below
      ensures c in Elements(classes[..i])
    {
      var k :| 0 <= k < |classes| && classes[k] == c;
      if k >= i {
        if k == i {
          LessIrreflexive(code);
        } else {
          LessAsymmetric(code, c);
        }
      }
      assert classes[..i][k] == c;
    }
    forall c | c in Elements(classes[..i])
      ensures c in below
    {
      var k :| 0 <= k < i && classes[..i][k] == c;
    }
    assert below == Elements(classes[..i]);
    SortedIsDistinct(classes);
    assert Distinct(classes[..i]);
    DistinctCardinality(classes[..i]);
  }

  /** `fit_transform` of a whole column. */
  function FitTransform(values: seq<string>): (codes: seq<nat>)
    ensures |codes| == |values|
    ensures forall r | 0 <= r < |values| ::
              codes[r] < |Fit(values)| && Fit(values)[codes[r]] == values[r]
  {
    var classes := Fit(values);
    seq(|values|, r requires 0 <= r < |values| =>
      assert values[r] in Elements(values); Transform(classes, values[r]))
  }

  /** The encoding `predict` applies to one raw code: its index when the code
      was seen in training, and the default index 0 otherwise. */
  function EncodeOrDefault(classes: seq<string>, code: string): (i: nat)
    ensures code in classes ==> i < |classes| && classes[i] == code
  {
    if code !in classes then 0 else Transform(classes, code)
  }

  /** The code `fit_transform` gives a training value is the code the fitted
      encoder gives the same value later. */
  lemma FitTransformAgreesWithEncoding(values: seq<string>, r: nat)
    requires r < |values|
    ensures FitTransform(values)[r] == EncodeOrDefault(Fit(values), values[r])
  {
    var classes := Fit(values);
    assert values[r] in Elements(values);
    SortedIsDistinct(classes);
  }

  /** A code never seen in training is not an error: it is encoded to 0, the
      same index as the smallest training value of that feature. */
  lemma UnseenCodeEncodesAsSmallest(training: seq<string>, code: string)
    requires training != [] && code !in training
    ensures Fit(training) != []
    ensures EncodeOrDefault(Fit(training), code) == 0
    ensures EncodeOrDefault(Fit(training), Fit(training)[0]) == 0
    ensures Fit(training)[0] in training
    ensures forall v | v in training :: v == Fit(training)[0] || Less(Fit(training)[0], v)
  {
    var classes := Fit(training);
    assert training[0] in Elements(training);
    assert classes[0] in Elements(classes);
    assert code !in Elements(classes);
    forall v | v in training
      ensures v == classes[0] || Less(classes[0], v)
    {
      assert v in Elements(classes);
    }
  }

  /** A code seen in training is encoded to a valid index that decodes back to it. */
  lemma SeenCodeRoundTrip(training: seq<string>, code: string)
    requires code in training
    ensures EncodeOrDefault(Fit(training), code) < |Fit(training)|
    ensures InverseTransform(Fit(training), EncodeOrDefault(Fit(training), code)) == code
  {
    assert code in Elements(training);
  }

  /** With training targets drawn from {"e", "p"} and both present, the target
      encoder's classes are ["e", "p"]: "e" encodes to 0 and "p" to 1. */
  lemma EdiblePoisonousCodes(targets: seq<string>)
    requires Elements(targets) == {"e", "p"}
    ensures Fit(targets) == ["e", "p"]
    ensures Transform(Fit(targets), "e") == 0 && Transform(Fit(targets), "p") == 1
    ensures InverseTransform(Fit(targets), 0) == "e" && InverseTransform(Fit(targets), 1) == "p"
  {
    var ep: seq<string> := ["e", "p"];
    assert Less(ep[0], ep[1]);
    assert StrictlySorted(ep);
    assert Elements(ep) == {"e", "p"};
    SortedUnique(Fit(targets), ep);
  }
}

=== FILE: paths.dfy ===
/** POSIX path helpers, as `os.path.basename`, `os.path.dirname` and
    `os.path.join` compute them with the separator '/'. */
module Paths {

  /** Index of the last '/' in `p`, or -1 when there is none (`p.rfind('/')`). */
  function LastSep(p: string): (i: int)
    ensures -1 <= i < |p|
    ensures i >= 0 ==> p[i] == '/'
    ensures forall j | i < j < |p| :: p[j] != '/'
  {
    if p == [] then -1
    else if p[|p| - 1] == '/' then |p| - 1
    else LastSep(p[..|p| - 1])
  }

  /** `os.path.basename`: everything after the last '/'. */
  function Basename(p: string): (b: string)
    ensures '/' !in b
    ensures |b| <= |p| && p[|p| - |b|..] == b
  {
    p[LastSep(p) + 1..]
  }

  /** `head.rstrip('/')` */
  function StripTrailingSeps(head: string): (r: string)
    ensures |r| <= |head| && head[..|r|] == r
    ensures r == [] || r[|r| - 1] != '/'
  {
    if head != [] && head[|head| - 1] == '/' then StripTrailingSeps(head[..|head| - 1]) else head
  }

  /** `os.path.dirname`: everything up to the last '/', without trailing
      separators unless the head consists of separators only. */
  function Dirname(p: string): (d: string)
    ensures |d| <= |p| && p[..|d|] == d
    ensures d == [] || d[|d| - 1] != '/' || forall k | 0 <= k < |d| :: d[k] == '/'
    ensures '/' !in p ==> d == []
  {
    var head := p[..LastSep(p) + 1];
    if head != [] && exists k | 0 <= k < |head| :: head[k] != '/' then StripTrailingSeps(head)
    else head
  }

  /** `os.path.join(a, b)`: an absolute `b` replaces `a`; otherwise `b` is
      appended after a separator unless `a` is empty or already ends with one. */
  function Join(a: string, b: string): string
  {
    if b != [] && b[0] == '/' then b
    else if a == [] || a[|a| - 1] == '/' then a + b
    else a + "/" + b
  }

  /** An absolute second part replaces the first; otherwise the join starts
      with the first part, ends with the second, and puts exactly one '/'
      between them when the first part does not end with one. */
  lemma JoinParts(a: string, b: string)
    ensures b != [] && b[0] == '/' ==> Join(a, b) == b
    ensures !(b != [] && b[0] == '/') ==>
              var r := Join(a, b);
              |a| + |b| <= |r| && r[..|a|] == a && r[|r| - |b|..] == b
    ensures !(b != [] && b[0] == '/') && a != [] && a[|a| - 1] != '/' ==>
              var r := Join(a, b);
              |r| == |a| + 1 + |b| && r[|a|] == '/'
  {
    if !(b != [] && b[0] == '/') {
      if a == [] || a[|a| - 1] == '/' {
        assert Join(a, b) == a + b;
      } else {
        assert Join(a, b) == a + "/" + b;
      }
    }
  }

  /** Joining a directory with a bare file name yields a path whose basename is
      that file name. */
  lemma JoinKeepsBasename(dir: string, name: string)
    requires '/' !in name
    ensures Basename(Join(dir, name)) == name
  {
    var prefix := if dir == [] || dir[|dir| - 1] == '/' then dir else dir + "/";
    assert name == [] || name[0] != '/' by {
      if name != [] { assert name[0] in name; }
    }
    assert Join(dir, name) == prefix + name;
    LastSepAfterPrefix(prefix, name);
    assert (prefix + name)[|prefix|..] == name;
  }

  /** In `prefix + name`, with `prefix` empty or ending in '/' and no '/' in
      `name`, the last separator is the last character of `prefix`. */
  lemma {:induction false} LastSepAfterPrefix(prefix: string, name: string)
    requires prefix == [] || prefix[|prefix| - 1] == '/'
    requires '/' !in name
    ensures LastSep(prefix + name) == |prefix| - 1
    decreases |name|
  {
    if name == [] {
      assert prefix + name == prefix;
    } else {
      var p := prefix + name;
      assert p[|p| - 1] == name[|name| - 1];
      assert name[|name| - 1] in name;
      assert p[..|p| - 1] == prefix + name[..|name| - 1];
      LastSepAfterPrefix(prefix, name[..|name| - 1]);
    }
  }

  /** Joining with a relative, non-empty name ends with that name's last character. */
  lemma JoinLast(dir: string, name: string)
    requires name != [] && name[0] != '/'
    ensures Join(dir, name) != [] && Join(dir, name)[|Join(dir, name)| - 1] == name[|name| - 1]
  {
  }

  /** Taking the folder of a file joined into a folder gives that folder back,
      when the folder has no trailing separator. */
  lemma DirnameOfJoin(dir: string, name: string)
    requires dir != [] && dir[|dir| - 1] != '/'
    requires '/' !in name
    ensures Dirname(Join(dir, name)) == dir
  {
    assert name == [] || name[0] != '/' by {
      if name != [] { assert name[0] in name; }
    }
    var prefix := dir + "/";
    assert Join(dir, name) == prefix + name;
    LastSepAfterPrefix(prefix, name);
    var p := prefix + name;
    assert p[..LastSep(p) + 1] == prefix;
    assert prefix[|dir| - 1] != '/';
    assert Dirname(p) == StripTrailingSeps(prefix);
    assert prefix[..|prefix| - 1] == dir;
    assert StripTrailingSeps(prefix) == StripTrailingSeps(dir);
  }
}

=== FILE: poison_model.dfy ===
/** The mushroom classification engine: a fixed, ordered list of five
    categorical features, one encoder per feature, a target encoder, and a
    decision tree fitted once when the classifier is built. The tree library
    is a parameter (`Learner`); everything around it (where the dataset is
    looked for, how columns are encoded, how a query is aligned and checked,
    how the answer is decoded, how the plotted tree is shaded) is modelled. */
module PoisonModel {
  import opened Wrappers
  import opened Strings
  import opened Encoding
  import Paths
  import Shading

  /** The features the model is trained on, in the order the tree sees them. */
  const FEATURES: seq<string> := ["cap-shape", "cap-color", "gill-color", "stalk-shape", "odor"]

  /** The dataset column holding the edible/poisonous label. */
  const TARGET: string := "poisonous"

  /** A CSV file as pandas reads it: named columns, all of the same height. */
  datatype Frame = Frame(columns: map<string, seq<string>>, height: nat)
  {
    predicate WellFormed()
    {
      forall c | c in columns :: |columns[c]| == height
    }
  }

  type Table = f: Frame | f.WellFormed() witness Frame(map[], 0)

  /** A fitted decision tree: from an encoded feature row to a target index. */
  type Tree = seq<nat> -> nat

  /** `DecisionTreeClassifier(random_state=42).fit(X, y)`: a deterministic
      function of the encoded matrix and the encoded target. */
  type Learner = (seq<seq<nat>>, seq<nat>) -> Tree

  /** What the tree library guarantees and the model relies on: a fitted tree
      only ever predicts one of the labels it was trained on. */
  ghost predicate SoundLearner(fit: Learner)
  {
    forall x, y, row | y != [] :: fit(x, y)(row) in y
  }

  /** Every answer of `tree` is an index below `n`. */
  ghost predicate AnswersBelow(tree: Tree, n: nat)
  {
    forall row :: tree(row) < n
  }

  /** A tree fitted on a non-empty encoded target only predicts valid target indices. */

  lemma FittedTreeInRange(fit: Learner, x: seq<seq<nat>>, targets: seq<string>)
    requires SoundLearner(fit) && targets != []
    ensures forall row :: fit(x, FitTransform(targets))(row) < |Fit(targets)|
  {
    forall row
      ensures fit(x, FitTransform(targets))(row) < |Fit(targets)|
    {
      assert fit(x, FitTransform(targets))(row) in FitTransform(targets);
    }
  }

  /** Decoding a valid index yields a label that occurs in the training targets. */
  lemma DecodedIsTrainingLabel(targets: seq<string>, i: nat)
    requires i < |Fit(targets)|
    ensures InverseTransform(Fit(targets), i) in targets
  {
    assert Fit(targets)[i] in Elements(Fit(targets));
  }

  /** The exceptions of the engine. */
  datatype Error =
    | FileNotFound(message: string)
    | KeyError(keys: seq<string>)
      /** the ValueError `predict` raises when the input has the wrong size */
    | WrongFeatureCount(expected: nat)
      /** the ValueError the tree library raises on a dataset without rows */
    | EmptyTrainingSet

  // ---------------------------------------------------------------------------
  // Locating the dataset
  // ---------------------------------------------------------------------------

  /** The first place looked at: the dataset's file name next to this module. */
  function DatasetCandidate(moduleFile: string, csvPath: string): string
  {
    Paths.Join(Paths.Dirname(moduleFile), Paths.Basename(csvPath))
  }

  /** The candidate keeps the requested file name and lies in the module's
      directory. */
  lemma DatasetCandidateParts(moduleFile: string, csvPath: string)
    ensures Paths.Basename(DatasetCandidate(moduleFile, csvPath)) == Paths.Basename(csvPath)
    ensures var d, c := Paths.Dirname(moduleFile), DatasetCandidate(moduleFile, csvPath);
            |d| <= |c| && c[..|d|] == d
  {
    var d := Paths.Dirname(moduleFile);
    var name := Paths.Basename(csvPath);
    Paths.JoinKeepsBasename(d, name);
    Paths.JoinParts(d, name);
    assert name == [] || name[0] != '/' by {
      if name != [] { assert name[0] in name; }
    }
  }

  /** The candidate when it exists, otherwise `csvPath` as given. Either way the
      path names a file with the same name as `csvPath`. */
  function ResolveDatasetPath(moduleFile: string, csvPath: string, existing: set<string>): (path: string)
    ensures path == (if DatasetCandidate(moduleFile, csvPath) in existing
                     then DatasetCandidate(moduleFile, csvPath) else csvPath)
    ensures Paths.Basename(path) == Paths.Basename(csvPath)
  {
    var candidate := DatasetCandidate(moduleFile, csvPath);
    Paths.JoinKeepsBasename(Paths.Dirname(moduleFile), Paths.Basename(csvPath));
    if candidate in existing then candidate else csvPath
  }

  const NOT_FOUND_PREFIX: string := "ERRORE: Il file '"
  const NOT_FOUND_SUFFIX: string := "' non è stato trovato. Assicurati che sia nella stessa cartella dell'eseguibile."

  /** The message of the FileNotFoundError re-raised by the constructor; it
      names the requested file. */
  function NotFoundMessage(fileName: string): (msg: string)
    ensures |msg| >= |NOT_FOUND_PREFIX| + |fileName|
    ensures msg[|NOT_FOUND_PREFIX|..|NOT_FOUND_PREFIX| + |fileName|] == fileName
  {
    NOT_FOUND_PREFIX + fileName + NOT_FOUND_SUFFIX
  }

  // ---------------------------------------------------------------------------
  // Training
  // ---------------------------------------------------------------------------

  /** The requested columns the dataset lacks, in request order
      (the KeyError of `df[self.features_input]`). */
  function MissingColumns(names: seq<string>, data: Table): (missing: seq<string>)
    ensures forall n :: n in missing <==> n in names && n !in data.columns
  {
    if names == [] then []
    else (if names[0] in data.columns then [] else [names[0]]) + MissingColumns(names[1..], data)
  }

  /** What `_train` raises on the file at `path`, if anything. */
  function TrainError(path: string, files: map<string, Table>): (e: Option<Error>)
    ensures e.None? <==> path in files && Trainable(files[path])
    ensures (e.Some? && e.value.FileNotFound?) <==> path !in files
    ensures e.Some? && e.value.KeyError? ==>
              && path in files && e.value.keys != []
              && forall k | k in e.value.keys :: (k in FEATURES || k == TARGET) && k !in files[path].columns
  {
    if path !in files then Some(FileNotFound(path))
    else if MissingColumns(FEATURES, files[path]) != [] then
      var missing := MissingColumns(FEATURES, files[path]);
      assert missing[0] in missing;
      Some(KeyError(missing))
    else if TARGET !in files[path].columns then Some(KeyError([TARGET]))
    else if files[path].height == 0 then Some(EmptyTrainingSet)
    else None
  }

  /** How the constructor re-raises `_train`'s error: a missing file is
      reported under the name the caller asked for, anything else unchanged. */
  function Reraised(err: Option<Error>, csvPath: string): (e: Option<Error>)
    ensures e.None? <==> err.None?
    ensures (e.Some? && e.value.FileNotFound?) <==> (err.Some? && err.value.FileNotFound?)
    ensures e.Some? && e.value.FileNotFound? ==> e.value.message == NotFoundMessage(Paths.Basename(csvPath))
    ensures e.Some? && !e.value.FileNotFound? ==> e == err
  {
    match err
    case Some(FileNotFound(_)) => Some(FileNotFound(NotFoundMessage(Paths.Basename(csvPath))))
    case other => other
  }

  /** What the constructor raises: `_train`'s error on the resolved path, as
      re-raised. */
  function InitError(csvPath: string, moduleFile: string, files: map<string, Table>): (e: Option<Error>)
    ensures var tried := ResolveDatasetPath(moduleFile, csvPath, files.Keys);
            && (e.None? <==> tried in files && Trainable(files[tried]))
            && (e.Some? && !e.value.FileNotFound? ==> e == TrainError(tried, files))
  {
    Reraised(TrainError(ResolveDatasetPath(moduleFile, csvPath, files.Keys), files), csvPath)
  }

  /** The constructor reports a missing dataset only when neither the file next
      to the module nor `csvPath` exists, and the report names the requested
      file rather than the path looked at. */
  lemma NotFoundOnlyWhenNowhere(csvPath: string, moduleFile: string, files: map<string, Table>)
    ensures var e := InitError(csvPath, moduleFile, files);
            (e.Some? && e.value.FileNotFound?)
              <==> (DatasetCandidate(moduleFile, csvPath) !in files && csvPath !in files)
    ensures var e := InitError(csvPath, moduleFile, files);
            e.Some? && e.value.FileNotFound? ==> e.value.message == NotFoundMessage(Paths.Basename(csvPath))
  {
  }

  /** A dataset the model can be trained on. */
  ghost predicate Trainable(data: Table)
  {
    && (forall f | f in FEATURES :: f in data.columns)
    && TARGET in data.columns
    && data.height > 0
  }

  /** One fitted encoder per feature. */
  function EncodersOf(features: seq<string>, data: Table): map<string, seq<string>>
    requires forall f | f in features :: f in data.columns
  {
    map f | f in features :: Fit(data.columns[f])
  }

  /** The feature columns after `X[col] = encoder.fit_transform(X[col])`, in feature order. */
  function EncodedColumns(features: seq<string>, data: Table): (cols: seq<seq<nat>>)
    requires forall f | f in features :: f in data.columns
    ensures |cols| == |features|
    ensures forall k | 0 <= k < |cols| :: |cols[k]| == data.height
  {
    seq(|features|, k requires 0 <= k < |features| => FitTransform(data.columns[features[k]]))
  }

  /** Entry r of encoded column k is the code, in feature k's encoder, of that
      column's value in row r. */
  lemma EncodedColumnsDecode(features: seq<string>, data: Table)
    requires forall f | f in features :: f in data.columns
    ensures var cols := EncodedColumns(features, data);
            forall k, r | 0 <= k < |features| && 0 <= r < data.height ::
              cols[k][r] < |Fit(data.columns[features[k]])|
              && Fit(data.columns[features[k]])[cols[k][r]] == data.columns[features[k]][r]
  {
  }

  /** Encoding one more feature column extends the encoders and the encoded
      columns by that feature's. */
  lemma EncodingStep(features: seq<string>, data: Table, i: nat)
    requires i < |features| && forall f | f in features :: f in data.columns
    ensures EncodedColumns(features[..i + 1], data)
              == EncodedColumns(features[..i], data) + [FitTransform(data.columns[features[i]])]
    ensures EncodersOf(features[..i + 1], data)
              == EncodersOf(features[..i], data)[features[i] := Fit(data.columns[features[i]])]
  {
    assert features[..i + 1] == features[..i] + [features[i]];
  }

  /** The loop of `_train` that replaces each feature column, in feature order,
      by its encoded form and keeps the fitted encoder under the feature's name. */
  method EncodeFeatures(features: seq<string>, data: Table) returns (x: seq<seq<nat>>, encoders: map<string, seq<string>>)
    requires forall f | f in features :: f in data.columns
    ensures x == EncodedColumns(features, data)
    ensures encoders == EncodersOf(features, data)
  {
    x, encoders := [], map[];
    for i := 0 to |features|
      invariant x == EncodedColumns(features[..i], data)
      invariant encoders == EncodersOf(features[..i], data)
    {
      var col := features[i];
      EncodingStep(features, data, i);
      encoders := encoders[col := Fit(data.columns[col])];
      x := x + [FitTransform(data.columns[col])];
    }
    assert features[..|features|] == features;
  }

  /** Rows of a frame given by its columns. */
  function Transpose(cols: seq<seq<nat>>, height: nat): seq<seq<nat>>
    requires forall k | 0 <= k < |cols| :: |cols[k]| == height
  {
    seq(height, r requires 0 <= r < height =>
      seq(|cols|, k requires 0 <= k < |cols| => cols[k][r]))
  }

  /** The encoded matrix the tree is fitted on. */
  function TrainingMatrix(features: seq<string>, data: Table): (m: seq<seq<nat>>)
    requires forall f | f in features :: f in data.columns
    ensures |m| == data.height
    ensures forall r | 0 <= r < |m| :: |m[r]| == |features|
  {
    Transpose(EncodedColumns(features, data), data.height)
  }

  /** Decoding entry (r, k) of the training matrix with feature k's encoder
      gives back the dataset's value of feature k in row r. */
  lemma TrainingMatrixDecodes(features: seq<string>, data: Table)
    requires forall f | f in features :: f in data.columns
    ensures var m := TrainingMatrix(features, data);
            forall r, k | 0 <= r < data.height && 0 <= k < |features| ::
              m[r][k] < |Fit(data.columns[features[k]])| &&
              InverseTransform(Fit(data.columns[features[k]]), m[r][k]) == data.columns[features[k]][r]
  {
    EncodedColumnsDecode(features, data);
  }

  // ---------------------------------------------------------------------------
  // Prediction
  // ---------------------------------------------------------------------------

  /** The first feature the input does not supply, if any. */
  function FirstMissing(features: seq<string>, keys: set<string>): (r: Option<nat>)
    ensures r.None? ==> forall f | f in features :: f in keys
    ensures r.Some? ==> r.value < |features| && features[r.value] !in keys
    ensures r.Some? ==> forall j | 0 <= j < r.value :: features[j] in keys
  {
    if features == [] then None
    else if features[0] !in keys then Some(0)
    else match FirstMissing(features[1..], keys)
      case None => None
      case Some(k) => Some(k + 1)
  }

  /** The encoded query row: entry k comes from the encoder of feature k,
      applied to the value the input gives for feature k. */
  function EncodeRow(features: seq<string>, encoders: map<string, seq<string>>, input: map<string, string>): (row: seq<nat>)
    requires forall f | f in features :: f in encoders && f in input
    ensures |row| == |features|
    ensures forall k | 0 <= k < |features| ::
              row[k] == EncodeOrDefault(encoders[features[k]], input[features[k]])
  {
    if features == [] then []
    else [EncodeOrDefault(encoders[features[0]], input[features[0]])] + EncodeRow(features[1..], encoders, input)
  }

  /** The encoded query, or the KeyError of the first feature the input lacks. */
  function EncodeQuery(features: seq<string>, encoders: map<string, seq<string>>,
                       input: map<string, string>): (r: Result<seq<nat>, Error>)
    requires forall f | f in features :: f in encoders
    ensures r.Failure? <==> exists f | f in features :: f !in input
    ensures r.Failure? ==> r.error.KeyError? && |r.error.keys| == 1
                           && r.error.keys[0] in features && r.error.keys[0] !in input
    ensures r.Success? ==> |r.value| == |features|
  {
    match FirstMissing(features, input.Keys)
    case Some(k) => Failure(KeyError([features[k]]))
    case None => Success(EncodeRow(features, encoders, input))
  }

  /** The outcome of `predict` for a classifier with the given encoders, target
      classes and tree. */
  function PredictOutcome(features: seq<string>, encoders: map<string, seq<string>>,
                          target: seq<string>, tree: Tree, input: map<string, string>): (r: Result<string, Error>)
    requires forall f | f in features :: f in encoders
    requires forall row :: tree(row) < |target|
    ensures |input| != |features| ==> r == Failure(WrongFeatureCount(|features|))
    ensures r.Success? ==> r.value in target
  {
    if |input| != |features| then Failure(WrongFeatureCount(|features|))
    else match EncodeQuery(features, encoders, input)
      case Failure(e) => Failure(e)
      case Success(row) => Success(InverseTransform(target, tree(row)))
  }

  /** The loop of `predict` that walks the features in order, reads each one's
      code from the input and encodes it with that feature's encoder. */
  method EncodeInput(features: seq<string>, encoders: map<string, seq<string>>,
                     input: map<string, string>) returns (r: Result<seq<nat>, Error>)
    requires forall f | f in features :: f in encoders
    ensures r == EncodeQuery(features, encoders, input)
  {
    var encodedInput: seq<nat> := [];
    for i := 0 to |features|
      invariant |encodedInput| == i
      invariant forall k | 0 <= k < i :: features[k] in input
      invariant forall k | 0 <= k < i ::
                  encodedInput[k] == EncodeOrDefault(encoders[features[k]], input[features[k]])
    {
      var featureName := features[i];
      if featureName !in input {
        return Failure(KeyError([featureName]));
      }
      var code := input[featureName];
      var encoder := encoders[featureName];
      var encodedValue := if code !in encoder then 0 else Transform(encoder, code);
      encodedInput := encodedInput + [encodedValue];
    }
    assert encodedInput == EncodeRow(features, encoders, input);
    return Success(encodedInput);
  }

  /** The five features are pairwise different. */
  lemma FeaturesDistinct()
    ensures Distinct(FEATURES)
  {
  }

  /** An input with the right number of entries but a wrong key is rejected
      with a KeyError naming a feature the input lacks, not with the size error. */
  lemma WrongKeyRaisesKeyError(features: seq<string>, encoders: map<string, seq<string>>,
                               target: seq<string>, tree: Tree, input: map<string, string>, f: string)
    requires forall g | g in features :: g in encoders
    requires forall row :: tree(row) < |target|
    requires |input| == |features| && f in features && f !in input
    ensures PredictOutcome(features, encoders, target, tree, input).Failure?
    ensures var e := PredictOutcome(features, encoders, target, tree, input).error;
            e.KeyError? && |e.keys| == 1 && e.keys[0] in features && e.keys[0] !in input
  {
  }

  /** Every feature supplied plus one more key: the size check fires. */
  lemma ExtraKeyRejected(features: seq<string>, encoders: map<string, seq<string>>,
                         target: seq<string>, tree: Tree, input: map<string, string>, extra: string)
    requires forall g | g in features :: g in encoders
    requires forall row :: tree(row) < |target|
    requires Distinct(features)
    requires forall g | g in features :: g in input
    requires extra in input && extra !in features
    ensures PredictOutcome(features, encoders, target, tree, input) == Failure(WrongFeatureCount(|features|))
  {
    DistinctCardinality(features);
    assert Elements(features) + {extra} <= input.Keys;
    assert |Elements(features) + {extra}| == |features| + 1;
    SubsetCardinality(Elements(features) + {extra}, input.Keys);
  }

  lemma SubsetCardinality<T>(a: set<T>, b: set<T>)
    requires a <= b
    ensures |a| <= |b|
  {
    assert b == a + (b - a);
  }

  /** An input whose keys are exactly the features is always answered, whatever
      codes it holds: unseen codes are encoded, not rejected. The answer is the
      tree's prediction on the feature-ordered encoded row, decoded. */
  lemma CompleteInputPredicts(features: seq<string>, encoders: map<string, seq<string>>,
                              target: seq<string>, tree: Tree, input: map<string, string>)
    requires forall g | g in features :: g in encoders
    requires forall row :: tree(row) < |target|
    requires Distinct(features) && input.Keys == Elements(features)
    ensures PredictOutcome(features, encoders, target, tree, input)
              == Success(InverseTransform(target, tree(EncodeRow(features, encoders, input))))
  {
    DistinctCardinality(features);
    assert |input| == |input.Keys|;
    forall k | 0 <= k < |features|
      ensures features[k] in input.Keys
    {
      assert features[k] in Elements(features);
    }
  }

  /** A code not seen in training for feature `f` gets the same answer as the
      smallest training value of `f`. */
  lemma {:induction false} UnseenCodeAnswersAsSmallest(features: seq<string>, encoders: map<string, seq<string>>,
                                                       target: seq<string>, tree: Tree,
                                                       input: map<string, string>, f: string)
    requires forall g | g in features :: g in encoders
    requires forall row :: tree(row) < |target|
    requires f in input && f in encoders && encoders[f] != [] && input[f] !in encoders[f]
    ensures PredictOutcome(features, encoders, target, tree, input)
              == PredictOutcome(features, encoders, target, tree, input[f := encoders[f][0]])
  {
    var other := input[f := encoders[f][0]];
    assert other.Keys == input.Keys;
    assert |other| == |input| by {
      assert |other| == |other.Keys| && |input| == |input.Keys|;
    }
    if FirstMissing(features, input.Keys).None? {
      var a := EncodeRow(features, encoders, input);
      var b := EncodeRow(features, encoders, other);
      forall k | 0 <= k < |features|
        ensures a[k] == b[k]
      {
        if features[k] == f {
          assert encoders[f][0] in encoders[f];
        }
      }
      assert a == b;
    }
  }

  /** Querying with the codes of row `r` of the training data reproduces row
      `r` of the encoded matrix the tree was fitted on. */
  lemma TrainingRowEncodesAsTrained(features: seq<string>, data: Table, r: nat, input: map<string, string>)
    requires forall f | f in features :: f in data.columns
    requires r < data.height
    requires forall f | f in features :: f in input && input[f] == data.columns[f][r]
    ensures EncodeRow(features, EncodersOf(features, data), input) == TrainingMatrix(features, data)[r]
  {
    var row := EncodeRow(features, EncodersOf(features, data), input);
    var cols := EncodedColumns(features, data);
    var trained := TrainingMatrix(features, data)[r];
    forall k | 0 <= k < |features|
      ensures row[k] == trained[k]
    {
      var col := data.columns[features[k]];
      assert trained[k] == cols[k][r] == FitTransform(col)[r];
      FitTransformAgreesWithEncoding(col, r);
    }
  }

  /** A query holding exactly the five feature codes of training row `r` is
      answered with the tree's prediction on that row of the training matrix;
      when the tree reproduces that row's training label, the answer is the
      row's own label. */
  lemma PredictOnTrainingRow(data: Table, tree: Tree, r: nat, input: map<string, string>)
    requires Trainable(data) && r < data.height
    requires forall row :: tree(row) < |Fit(data.columns[TARGET])|
    requires input.Keys == Elements(FEATURES)
    requires forall f | f in FEATURES :: input[f] == data.columns[f][r]
    ensures var targets := data.columns[TARGET];
            PredictOutcome(FEATURES, EncodersOf(FEATURES, data), Fit(targets), tree, input)
              == Success(InverseTransform(Fit(targets), tree(TrainingMatrix(FEATURES, data)[r])))
    ensures var targets := data.columns[TARGET];
            tree(TrainingMatrix(FEATURES, data)[r]) == FitTransform(targets)[r] ==>
              PredictOutcome(FEATURES, EncodersOf(FEATURES, data), Fit(targets), tree, input)
                == Success(targets[r])
  {
    var targets := data.columns[TARGET];
    FeaturesDistinct();
    CompleteInputPredicts(FEATURES, EncodersOf(FEATURES, data), Fit(targets), tree, input);
    forall f | f in FEATURES
      ensures f in input
    {
      assert f in Elements(FEATURES);
    }
    TrainingRowEncodesAsTrained(FEATURES, data, r, input);
  }

  // ---------------------------------------------------------------------------
  // Tree shading
  // ---------------------------------------------------------------------------

  /** The fill of one plotted node. */
  datatype Fill = Fill(node: nat, color: string, alpha: real)

  /** The outcome of `visualize_tree`. */
  datatype Rendering =
    | NotTrained
    | Painted(fills: seq<Fill>)
    | PaintFailed(error: Error)

  const EDIBLE_COLOR: string := "#5D8053"
  const POISONOUS_COLOR: string := "#C63636"

  /** The colour table of the plot, keyed by target class name. */
  function ClassColor(name: string): (c: Option<string>)
    ensures c.Some? <==> name == "e" || name == "p"
    ensures c.Some? ==> c.value in {EDIBLE_COLOR, POISONOUS_COLOR}
    ensures c.Some? && name != "e" ==> c.value != EDIBLE_COLOR
    ensures c.Some? && name != "p" ==> c.value != POISONOUS_COLOR
    ensures name == "e" ==> c == Some(EDIBLE_COLOR)
  {
    if name == "e" then Some(EDIBLE_COLOR)
    else if name == "p" then Some(POISONOUS_COLOR)
    else None
  }

  /** Class counts of every node, one per target class (None: the artist is
      not a node box with counts). */
  ghost predicate CountsFit(nodes: seq<Option<seq<nat>>>, classNames: seq<string>)
  {
    forall i | 0 <= i < |nodes| && nodes[i].Some? :: |nodes[i].value| == |classNames|
  }

  /** The fill of node `i`, None when the node is skipped. */
  function PaintNode(i: nat, node: Option<seq<nat>>, classNames: seq<string>): (r: Result<Option<Fill>, Error>)
    requires node.Some? ==> |node.value| == |classNames|
    ensures r == Success(None) <==> node.None? || Shading.Sum(node.value) == 0
    ensures r.Failure? ==> node.Some? && Shading.Sum(node.value) > 0
                           && r.error == KeyError([classNames[Shading.ArgMax(node.value)]])
                           && ClassColor(classNames[Shading.ArgMax(node.value)]).None?
    ensures r.Success? && r.value.Some? ==>
              && node.Some? && r.value.value.node == i
              && ClassColor(classNames[Shading.ArgMax(node.value)]) == Some(r.value.value.color)
              && r.value.value.color in {EDIBLE_COLOR, POISONOUS_COLOR}
              && 0.6 <= r.value.value.alpha <= 1.0
  {
    if node.None? then Success(None)
    else match Shading.NodeShade(node.value)
      case None => Success(None)
      case Some(s) =>
        match ClassColor(classNames[s.majority])
        case None => Failure(KeyError([classNames[s.majority]]))
        case Some(c) => Success(Some(Fill(i, c, s.alpha)))
  }

  /** The fills of all nodes, in plotting order; the first missing colour stops
      the rendering. */
  function Paint(nodes: seq<Option<seq<nat>>>, classNames: seq<string>): (r: Rendering)
    requires CountsFit(nodes, classNames)
    ensures !r.NotTrained?
    ensures r.Painted? ==> |r.fills| <= |nodes|
    ensures r.Painted? ==> forall j | 0 <= j < |r.fills| :: r.fills[j].node < |nodes|
    ensures r.Painted? ==> forall j, k | 0 <= j < k < |r.fills| :: r.fills[j].node < r.fills[k].node
  {
    if nodes == [] then Painted([])
    else
      var prev := Paint(nodes[..|nodes| - 1], classNames);
      if !prev.Painted? then prev
      else match PaintNode(|nodes| - 1, nodes[|nodes| - 1], classNames)
        case Failure(e) => PaintFailed(e)
        case Success(None) => prev
        case Success(Some(f)) => Painted(prev.fills + [f])
  }

  /** Once a node's colour is missing, the nodes after it do not change the outcome. */
  lemma {:induction false} PaintFailurePersists(nodes: seq<Option<seq<nat>>>, classNames: seq<string>, i: nat)
    requires CountsFit(nodes, classNames) && i <= |nodes|
    requires Paint(nodes[..i], classNames).PaintFailed?
    ensures Paint(nodes, classNames) == Paint(nodes[..i], classNames)
    decreases |nodes| - i
  {
    if i < |nodes| {
      var longer := nodes[..i + 1];
      assert longer[..i] == nodes[..i];
      assert Paint(longer, classNames) == Paint(nodes[..i], classNames);
      PaintFailurePersists(nodes, classNames, i + 1);
    } else {
      assert nodes[..i] == nodes;
    }
  }

  /** `f` is the fill `visualize_tree` computes for the node it names. */
  ghost predicate FillFor(f: Fill, nodes: seq<Option<seq<nat>>>, classNames: seq<string>)
    requires CountsFit(nodes, classNames)
  {
    && f.node < |nodes|
    && nodes[f.node].Some?
    && var shade := Shading.NodeShade(nodes[f.node].value);
       && shade.Some?
       && ClassColor(classNames[shade.value.majority]) == Some(f.color)
       && f.alpha == shade.value.alpha
  }

  /** The last step of Paint on a completed rendering: the rendering of all
      but the last node is complete too, and the last node adds its fill or
      nothing. */
  lemma PaintLast(nodes: seq<Option<seq<nat>>>, classNames: seq<string>)
    requires CountsFit(nodes, classNames) && nodes != [] && Paint(nodes, classNames).Painted?
    ensures var init := nodes[..|nodes| - 1];
            && CountsFit(init, classNames)
            && Paint(init, classNames).Painted?
            && var prev := Paint(init, classNames).fills;
               var fills := Paint(nodes, classNames).fills;
               var n := |nodes| - 1;
               if nodes[n].Some? && Shading.Sum(nodes[n].value) > 0
               then |fills| == |prev| + 1 && fills[..|prev|] == prev
                    && fills[|prev|].node == n && FillFor(fills[|prev|], nodes, classNames)
               else fills == prev
  {
  }

  /** Every fill of a completed rendering is the fill of the node it names, and
      the fills come in increasing node order. */
  lemma {:induction false} PaintedFillsSound(nodes: seq<Option<seq<nat>>>, classNames: seq<string>)
    requires CountsFit(nodes, classNames) && Paint(nodes, classNames).Painted?
    ensures var fills := Paint(nodes, classNames).fills;
            && (forall j | 0 <= j < |fills| :: FillFor(fills[j], nodes, classNames))
            && (forall j, k | 0 <= j < k < |fills| :: fills[j].node < fills[k].node)
  {
    if nodes != [] {
      var n := |nodes| - 1;
      var init := nodes[..n];
      PaintLast(nodes, classNames);
      PaintedFillsSound(init, classNames);
      var prev := Paint(init, classNames).fills;
      var fills := Paint(nodes, classNames).fills;
      forall j | 0 <= j < |prev|
        ensures FillFor(prev[j], nodes, classNames) && prev[j].node < n
      {
        assert FillFor(prev[j], init, classNames);
        assert nodes[prev[j].node] == init[prev[j].node];
      }
      forall j | 0 <= j < |fills|
        ensures FillFor(fills[j], nodes, classNames) && (j < |prev| ==> fills[j] == prev[j])
      {
        if j < |prev| {
          assert fills[j] == fills[..|prev|][j];
        }
      }
    }
  }

  /** Every node whose counts do not sum to zero has a fill in a completed rendering. */
  lemma {:induction false} PaintedFillsComplete(nodes: seq<Option<seq<nat>>>, classNames: seq<string>, i: nat)
    requires CountsFit(nodes, classNames) && Paint(nodes, classNames).Painted?
    requires i < |nodes| && nodes[i].Some? && Shading.Sum(nodes[i].value) > 0
    ensures exists j | 0 <= j < |Paint(nodes, classNames).fills| :: Paint(nodes, classNames).fills[j].node == i
  {
    var n := |nodes| - 1;
    PaintLast(nodes, classNames);
    var prev := Paint(nodes[..n], classNames).fills;
    var fills := Paint(nodes, classNames).fills;
    if i < n {
      assert nodes[..n][i] == nodes[i];
      PaintedFillsComplete(nodes[..n], classNames, i);
      var j :| 0 <= j < |prev| && prev[j].node == i;
      assert fills[..|prev|][j] == prev[j];
    } else {
      assert fills[|prev|].node == i;
    }
  }

  /** A completed rendering holds exactly one fill per node whose counts do not
      sum to zero, in node order, each coloured after the node's majority class
      with an alpha between 0.6 and 1. */
  lemma PaintedFills(nodes: seq<Option<seq<nat>>>, classNames: seq<string>)
    requires CountsFit(nodes, classNames) && Paint(nodes, classNames).Painted?
    ensures var fills := Paint(nodes, classNames).fills;
            && (forall j | 0 <= j < |fills| :: FillFor(fills[j], nodes, classNames))
            && (forall j | 0 <= j < |fills| ::
                  0.6 <= fills[j].alpha <= 1.0 && fills[j].color in {EDIBLE_COLOR, POISONOUS_COLOR})
            && (forall j, k | 0 <= j < k < |fills| :: fills[j].node < fills[k].node)
            && (forall i | 0 <= i < |nodes| ::
                  (exists j | 0 <= j < |fills| :: fills[j].node == i)
                    <==> nodes[i].Some? && Shading.Sum(nodes[i].value) > 0)
  {
    var fills := Paint(nodes, classNames).fills;
    PaintedFillsSound(nodes, classNames);
    forall i | 0 <= i < |nodes| && nodes[i].Some? && Shading.Sum(nodes[i].value) > 0
      ensures exists j | 0 <= j < |fills| :: fills[j].node == i
    {
      PaintedFillsComplete(nodes, classNames, i);
    }
    forall j | 0 <= j < |fills|
      ensures 0.6 <= fills[j].alpha <= 1.0 && fills[j].color in {EDIBLE_COLOR, POISONOUS_COLOR}
    {
      assert FillFor(fills[j], nodes, classNames);
    }
  }

  /** With the target classes "e" and "p" every node has a colour, so the
      rendering never stops early. */
  lemma {:induction false} EdiblePoisonousAlwaysPainted(nodes: seq<Option<seq<nat>>>)
    requires CountsFit(nodes, ["e", "p"])
    ensures Paint(nodes, ["e", "p"]).Painted?
  {
    if nodes != [] {
      EdiblePoisonousAlwaysPainted(nodes[..|nodes| - 1]);
    }
  }

  /** The state `_train` leaves after a successful run on `data`: one encoder
      per feature, the target encoder, and the tree `learner` fits on the
      encoded matrix and target. */
  ghost predicate Fitted(model: Option<Tree>, encoders: map<string, seq<string>>, leTarget: Option<seq<string>>,
                         trainedOn: Table, data: Table, learner: Learner)
  {
    && trainedOn == data
    && Trainable(data)
    && encoders == EncodersOf(FEATURES, data)
    && leTarget == Some(Fit(data.columns[TARGET]))
    && model == Some(learner(TrainingMatrix(FEATURES, data), FitTransform(data.columns[TARGET])))
  }

  // ---------------------------------------------------------------------------
  // The classifier
  // ---------------------------------------------------------------------------

  class MushroomClassifier {
    const featuresInput: seq<string>
    var model: Option<Tree>
    var dizionarioEncoders: map<string, seq<string>>
    var leTarget: Option<seq<string>>
    /** The exception the constructor raised, if any: such an object is never
        handed to a caller. */
    var raised: Option<Error>
    /** The dataset the model was trained on. */
    ghost var trainedOn: Table

    ghost predicate Valid()
      reads this`model, this`dizionarioEncoders, this`leTarget, this`trainedOn
    {
      && featuresInput == FEATURES
      && (model.Some? ==>
            && Trainable(trainedOn)
            && dizionarioEncoders == EncodersOf(featuresInput, trainedOn)
            && leTarget == Some(Fit(trainedOn.columns[TARGET]))
            && AnswersBelow(model.value, |leTarget.value|))
    }

    /** `MushroomClassifier(csv_path)`: looks for the dataset next to the
        module first, then trains on it. */
    constructor (csvPath: string, moduleFile: string, files: map<string, Table>, learner: Learner)
      requires SoundLearner(learner)
      ensures Valid()
      ensures raised == InitError(csvPath, moduleFile, files)
      ensures raised.None? <==> model.Some?
      ensures raised.None? ==> Fitted(model, dizionarioEncoders, leTarget, trainedOn,
                                      files[ResolveDatasetPath(moduleFile, csvPath, files.Keys)], learner)
    {
      featuresInput := FEATURES;
      model := None;
      dizionarioEncoders := map[];
      leTarget := None;
      raised := None;
      trainedOn := Frame(map[], 0);
      new;
      var fullPath := ResolveDatasetPath(moduleFile, csvPath, files.Keys);
      var err := Train(fullPath, files, learner);
      if err.None? {
        raised := None;
      } else if err.value.FileNotFound? {
        raised := Some(FileNotFound(NotFoundMessage(Paths.Basename(csvPath))));
      } else {
        raised := err;
      }
    }

    /** `_train`: encodes every feature column and the target, then fits the tree. */
    method Train(csvPath: string, files: map<string, Table>, learner: Learner) returns (err: Option<Error>)
      requires Valid() && model.None? && SoundLearner(learner)
      modifies this
      ensures Valid()
      ensures err == TrainError(csvPath, files)
      ensures err.Some? <==> model.None?
      ensures err.None? ==> Fitted(model, dizionarioEncoders, leTarget, trainedOn, files[csvPath], learner)
    {
      if csvPath !in files {
        return Some(FileNotFound(csvPath));
      }
      var df := files[csvPath];
      var missing := MissingColumns(featuresInput, df);
      if missing != [] {
        return Some(KeyError(missing));
      }
      if TARGET !in df.columns {
        return Some(KeyError([TARGET]));
      }
      var x, encoders := EncodeFeatures(featuresInput, df);
      dizionarioEncoders := encoders;
      var y := df.columns[TARGET];
      leTarget := Some(Fit(y));
      var yEncoded := FitTransform(y);
      if df.height == 0 {
        return Some(EmptyTrainingSet);
      }
      var tree := learner(Transpose(x, df.height), yEncoded);
      FittedTreeInRange(learner, Transpose(x, df.height), y);
      assert Trainable(df);
      model := Some(tree);
      trainedOn := df;
      err := None;
    }

    /** `predict`: checks the size of the input, encodes the supplied codes in
        feature order (unseen codes as 0), queries the tree and decodes its
        answer. */
    method Predict(featuresDict: map<string, string>) returns (r: Result<string, Error>)
      requires Valid() && model.Some?
      ensures r == PredictOutcome(featuresInput, dizionarioEncoders, leTarget.value, model.value, featuresDict)
      ensures |featuresDict| != |featuresInput| ==> r == Failure(WrongFeatureCount(5))
      ensures r.Success? ==> r.value in trainedOn.columns[TARGET]
    {
      if |featuresDict| != |featuresInput| {
        return Failure(WrongFeatureCount(|featuresInput|));
      }
      var encoded := EncodeInput(featuresInput, dizionarioEncoders, featuresDict);
      if encoded.Failure? {
        return Failure(encoded.error);
      }
      var predictionNum := model.value(encoded.value);
      r := Success(InverseTransform(leTarget.value, predictionNum));
      DecodedIsTrainingLabel(trainedOn.columns[TARGET], predictionNum);
    }

    /** `visualize_tree`, given the class counts shown in each plotted node:
        nothing without a trained model, otherwise the fill of every node whose
        counts do not sum to zero. */
    method VisualizeTree(nodes: seq<Option<seq<nat>>>) returns (r: Rendering)
      requires Valid()
      requires model.Some? ==> CountsFit(nodes, leTarget.value)
      ensures model.None? <==> r == NotTrained
      ensures model.Some? ==> r == Paint(nodes, leTarget.value)
    {
      if model.None? {
        return NotTrained;
      }
      var classNames := leTarget.value;
      var fills: seq<Fill> := [];
      for i := 0 to |nodes|
        invariant Paint(nodes[..i], classNames) == Painted(fills)
      {
        assert nodes[..i + 1][..i] == nodes[..i];
        if nodes[i].None? {
          continue;
        }
        var classCounts := nodes[i].value;
        if Shading.Sum(classCounts) == 0 {
          continue;
        }
        var majorityClassIdx := Shading.ArgMax(classCounts);
        var majorityClassName := classNames[majorityClassIdx];
        var colorHex := ClassColor(majorityClassName);
        if colorHex.None? {
          PaintFailurePersists(nodes, classNames, i + 1);
          return PaintFailed(KeyError([majorityClassName]));
        }
        var purity := classCounts[majorityClassIdx] as real / Shading.Sum(classCounts) as real;
        var alpha := Shading.Alpha(purity);
        fills := fills + [Fill(i, colorHex.value, alpha)];
      }
      assert nodes[..|nodes|] == nodes;
      return Painted(fills);
    }
  }
}

=== FILE: setup_dataset.dfy ===
/** The dataset setup script: it puts `mushrooms.csv` into the data folder,
    either downloaded or extracted from `mushroom.zip`, and on success copies
    it into the project folders that read it. The file system is an object
    whose state is the set of paths that exist and the list of folders the
    dataset was copied into; the download, the archive's contents and the
    outcome of each write are parameters. */
module SetupDataset {
  import opened Wrappers
  import opened Strings
  import Paths

  const CSV_FILE: string := "mushrooms.csv"
  const ZIP_FILE: string := "mushroom.zip"
  const CSV_SUFFIX: string := ".csv"
  const DATA_SUFFIX: string := ".data"

  /** `CSV_PATH`: the dataset inside the data folder. */
  function CsvPath(dataDir: string): string
  {
    Paths.Join(dataDir, CSV_FILE)
  }

  /** `ZIP_PATH`: the archive inside the data folder. */
  function ZipPath(dataDir: string): string
  {
    Paths.Join(dataDir, ZIP_FILE)
  }

  /** The project folders that receive a copy, in the order they are tried. */
  function Destinations(projectRoot: string): (dirs: seq<string>)
    ensures |dirs| == 2
  {
    [Paths.Join(projectRoot, "poison_analysis"), Paths.Join(projectRoot, "visualization")]
  }

  // ---------------------------------------------------------------------------
  // Choosing the archive member
  // ---------------------------------------------------------------------------

  /** The member to extract and whether it is read as a CSV with a header
      (otherwise it is a headerless `.data` file). */
  datatype Selection = Selection(name: string, isCsv: bool)

  /** Index of the first name ending with `suffix`. */
  function FirstEndingWith(names: seq<string>, suffix: string): (r: Option<nat>)
    ensures r.None? <==> forall k | 0 <= k < |names| :: !EndsWith(names[k], suffix)
    ensures r.Some? ==> r.value < |names| && EndsWith(names[r.value], suffix)
    ensures r.Some? ==> forall k | 0 <= k < r.value :: !EndsWith(names[k], suffix)
  {
    if names == [] then None
    else if EndsWith(names[0], suffix) then Some(0)
    else match FirstEndingWith(names[1..], suffix)
      case None => None
      case Some(k) => Some(k + 1)
  }

  /** The member `extract_from_zip` chooses: the first `.csv` in archive order,
      otherwise the first `.data`, otherwise none. */
  function Select(names: seq<string>): (s: Option<Selection>)
    ensures s.Some? ==> s.value.name in names
    ensures s.Some? ==> (s.value.isCsv <==> EndsWith(s.value.name, CSV_SUFFIX))
    ensures s.Some? && !s.value.isCsv ==> EndsWith(s.value.name, DATA_SUFFIX)
    ensures s.None? <==> forall n | n in names :: !EndsWith(n, CSV_SUFFIX) && !EndsWith(n, DATA_SUFFIX)
  {
    match FirstEndingWith(names, CSV_SUFFIX)
    case Some(i) => Some(Selection(names[i], true))
    case None =>
      match FirstEndingWith(names, DATA_SUFFIX)
      case Some(i) =>
        DataIsNotCsv(names[i]);
        Some(Selection(names[i], false))
      case None => None
  }

  /** A name ending with ".data" does not end with ".csv": the last characters differ. */
  lemma DataIsNotCsv(name: string)
    requires EndsWith(name, DATA_SUFFIX)
    ensures !EndsWith(name, CSV_SUFFIX)
  {
    assert name[|name| - 1] == DATA_SUFFIX[4];
    assert name[|name| - |CSV_SUFFIX|..][3] == name[|name| - 1];
  }

  /** When the archive holds any `.csv`, the first one is chosen, even when a
      `.data` member comes before it. */
  lemma CsvPreferred(names: seq<string>, i: nat)
    requires i < |names| && EndsWith(names[i], CSV_SUFFIX)
    requires forall k | 0 <= k < i :: !EndsWith(names[k], CSV_SUFFIX)
    ensures Select(names) == Some(Selection(names[i], true))
  {
    assert FirstEndingWith(names, CSV_SUFFIX) == Some(i);
  }

  /** Without any `.csv`, the first `.data` member is chosen and read without header. */
  lemma DataFallback(names: seq<string>, i: nat)
    requires forall k | 0 <= k < |names| :: !EndsWith(names[k], CSV_SUFFIX)
    requires i < |names| && EndsWith(names[i], DATA_SUFFIX)
    requires forall k | 0 <= k < i :: !EndsWith(names[k], DATA_SUFFIX)
    ensures Select(names) == Some(Selection(names[i], false))
  {
    assert FirstEndingWith(names, DATA_SUFFIX) == Some(i);
  }

  /** An archive listing a `.data` member before a `.csv` one. */
  lemma CsvAfterDataExample()
    ensures Select(["agaricus-lepiota.names", "agaricus-lepiota.data", "mushrooms.csv"])
              == Some(Selection("mushrooms.csv", true))
  {
    var names := ["agaricus-lepiota.names", "agaricus-lepiota.data", "mushrooms.csv"];
    assert !EndsWith(names[0], CSV_SUFFIX) by {
      assert names[0][|names[0]| - 1] == 's';
    }
    assert !EndsWith(names[1], CSV_SUFFIX) by {
      assert names[1][|names[1]| - 1] == 'a';
    }
    assert EndsWith(names[2], CSV_SUFFIX);
    CsvPreferred(names, 2);
  }

  /** The two searches of `extract_from_zip` over the member list. */
  method ChooseMember(names: seq<string>) returns (chosen: Option<Selection>)
    ensures chosen == Select(names)
  {
    var fileToExtract: Option<string> := None;
    var isCsv := false;
    // first a .csv member
    for i := 0 to |names|
      invariant fileToExtract.None? && !isCsv
      invariant forall k | 0 <= k < i :: !EndsWith(names[k], CSV_SUFFIX)
    {
      if EndsWith(names[i], CSV_SUFFIX) {
        fileToExtract := Some(names[i]);
        isCsv := true;
        CsvPreferred(names, i);
        break;
      }
    }
    // otherwise a .data member
    if fileToExtract.None? {
      for i := 0 to |names|
        invariant fileToExtract.None?
        invariant forall k | 0 <= k < i :: !EndsWith(names[k], DATA_SUFFIX)
      {
        if EndsWith(names[i], DATA_SUFFIX) {
          fileToExtract := Some(names[i]);
          DataFallback(names, i);
          break;
        }
      }
    }
    if fileToExtract.None? {
      return None;
    }
    return Some(Selection(fileToExtract.value, isCsv));
  }

  // ---------------------------------------------------------------------------
  // Copying into the projects
  // ---------------------------------------------------------------------------

  /** The destinations that receive a copy: those that exist and whose copy
      does not fail, in destination order. */
  function CopyTargets(dirs: seq<string>, present: set<string>, copyOk: string -> bool): (copied: seq<string>)
    ensures |copied| <= |dirs|
  {
    if dirs == [] then []
    else
      (if dirs[0] in present && copyOk(dirs[0]) then [dirs[0]] else [])
        + CopyTargets(dirs[1..], present, copyOk)
  }

  /** A folder receives a copy exactly when it is a destination, it exists and
      its copy succeeds. */
  lemma {:induction false} CopyTargetsMembers(dirs: seq<string>, present: set<string>, copyOk: string -> bool, d: string)
    ensures d in CopyTargets(dirs, present, copyOk) <==> d in dirs && d in present && copyOk(d)
  {
    if dirs != [] {
      CopyTargetsMembers(dirs[1..], present, copyOk, d);
      assert d in dirs <==> d == dirs[0] || d in dirs[1..];
    }
  }

  /** The files `shutil.copy` creates: the dataset's name inside each folder. */
  function CopiedFiles(dirs: seq<string>): set<string>
  {
    set d | d in dirs :: Paths.Join(d, CSV_FILE)
  }

  /** A destination folder that does not exist is skipped, never created. */
  lemma MissingFolderSkipped(dirs: seq<string>, present: set<string>, copyOk: string -> bool, d: string)
    requires d !in present
    ensures d !in CopyTargets(dirs, present, copyOk)
  {
    CopyTargetsMembers(dirs, present, copyOk, d);
  }

  // ---------------------------------------------------------------------------
  // The file system and the script's steps
  // ---------------------------------------------------------------------------

  class FileSystem {
    /** The paths that exist. */
    var present: set<string>
    /** The folders the dataset was copied into, in order. */
    var copiedTo: seq<string>

    constructor (initial: set<string>)
      ensures present == initial && copiedTo == []
    {
      present := initial;
      copiedTo := [];
    }

    /** `download_from_url`: `downloadOk` is whether fetching and writing the
        CSV succeeded. */
    method DownloadFromUrl(dataDir: string, downloadOk: bool) returns (ok: bool)
      modifies this
      ensures ok == downloadOk
      ensures present == if ok then old(present) + {CsvPath(dataDir)} else old(present)
      ensures copiedTo == old(copiedTo)
    {
      if !downloadOk {
        return false;
      }
      present := present + {CsvPath(dataDir)};
      return true;
    }

    /** `extract_from_zip`: `archive` is the member list when the archive opens
        (None: not a readable ZIP), `convertOk` whether reading the chosen
        member and writing the CSV succeed. `zipExists` tells whether the archive
        path exists; nothing is opened when it does not. */
    method ExtractFromZip(dataDir: string, archive: Option<seq<string>>, convertOk: bool)
      returns (ok: bool, zipExists: bool, chosen: Option<Selection>)
      modifies this
      ensures zipExists <==> ZipPath(dataDir) in old(present)
      ensures !zipExists ==> !ok && chosen.None?
      ensures zipExists && archive.None? ==> !ok && chosen.None?
      ensures zipExists && archive.Some? ==> chosen == Select(archive.value)
      ensures ok <==> zipExists && chosen.Some? && convertOk
      ensures present == if ok then old(present) + {CsvPath(dataDir)} else old(present)
      ensures copiedTo == old(copiedTo)
    {
      if ZipPath(dataDir) !in present {
        return false, false, None;
      }
      if archive.None? {
        return false, true, None;
      }
      chosen := ChooseMember(archive.value);
      if chosen.None? || !convertOk {
        return false, true, chosen;
      }
      present := present + {CsvPath(dataDir)};
      return true, true, chosen;
    }

    /** `copy_csv_to_projects`: nothing when the CSV is absent; otherwise each
        destination in turn, skipping those that do not exist. */
    method CopyCsvToProjects(dataDir: string, projectRoot: string, copyOk: string -> bool)
      modifies this
      ensures CsvPath(dataDir) !in old(present) ==> present == old(present) && copiedTo == old(copiedTo)
      ensures CsvPath(dataDir) in old(present) ==>
                var copied := CopyTargets(Destinations(projectRoot), old(present), copyOk);
                && copiedTo == old(copiedTo) + copied
                && present == old(present) + CopiedFiles(copied)
    {
      if CsvPath(dataDir) !in present {
        return;
      }
      var destinations := Destinations(projectRoot);
      ghost var before := present;
      ghost var done: seq<string> := [];
      for i := 0 to |destinations|
        invariant before == old(present)
        invariant done == CopyTargets(destinations[..i], before, copyOk)
        invariant copiedTo == old(copiedTo) + done
        invariant present == before + CopiedFiles(done)
      {
        var destDir := destinations[i];
        CopyStep(projectRoot, i, before, copyOk);
        if destDir !in present {
          continue;
        }
        if copyOk(destDir) {
          present := present + {Paths.Join(destDir, CSV_FILE)};
          assert old(copiedTo) + (done + [destDir]) == copiedTo + [destDir];
          copiedTo := copiedTo + [destDir];
          done := done + [destDir];
        }
      }
      assert destinations[..|destinations|] == destinations;
    }

    /** `main`: creates the data folder when missing, obtains the dataset by
        download or from the archive, and copies it only when that succeeded. */
    method RunSetup(useZip: bool, dataDir: string, projectRoot: string, downloadOk: bool,
                    archive: Option<seq<string>>, convertOk: bool, copyOk: string -> bool)
      returns (success: bool)
      modifies this
      ensures dataDir in present
      ensures !success ==> copiedTo == old(copiedTo)
      ensures success ==> CsvPath(dataDir) in present
      ensures present == old(present) + {dataDir} +
                (if success
                 then {CsvPath(dataDir)} + CopiedFiles(CopyTargets(Destinations(projectRoot), old(present) + {dataDir, CsvPath(dataDir)}, copyOk))
                 else {})
      ensures success ==>
                copiedTo == old(copiedTo) + CopyTargets(Destinations(projectRoot), old(present) + {dataDir, CsvPath(dataDir)}, copyOk)
      ensures success <==> if useZip then ZipPath(dataDir) in old(present) + {dataDir} && archive.Some?
                                          && Select(archive.value).Some? && convertOk
                           else downloadOk
    {
      if dataDir !in present {
        present := present + {dataDir};
      }
      ghost var prepared := present;
      assert prepared == old(present) + {dataDir};
      if useZip {
        var zipExists, chosen;
        success, zipExists, chosen := ExtractFromZip(dataDir, archive, convertOk);
      } else {
        success := DownloadFromUrl(dataDir, downloadOk);
      }
      if success {
        ghost var obtained := prepared + {CsvPath(dataDir)};
        assert obtained == old(present) + {dataDir, CsvPath(dataDir)};
        assert present == obtained;
        ghost var copied := CopyTargets(Destinations(projectRoot), obtained, copyOk);
        ghost var copiedBefore := copiedTo;
        CopyCsvToProjects(dataDir, projectRoot, copyOk);
        assert present == obtained + CopiedFiles(copied);
        assert CsvPath(dataDir) in obtained && dataDir in obtained;
        assert copiedTo == copiedBefore + copied;
      }
    }
  }

  /** The copies end in the dataset's name, so none of them is a destination
      folder: copying never makes a later destination appear. */
  lemma DestinationNotACopy(projectRoot: string, i: nat, dirs: seq<string>)
    requires i < 2
    ensures Destinations(projectRoot)[i] !in CopiedFiles(dirs)
  {
    Paths.JoinLast(projectRoot, "poison_analysis");
    Paths.JoinLast(projectRoot, "visualization");
    forall d | d in dirs
      ensures Paths.Join(d, CSV_FILE) != Destinations(projectRoot)[i]
    {
      Paths.JoinLast(d, CSV_FILE);
    }
  }

  /** One iteration of the copy loop: destination `i` is appended to the
      copies exactly when it exists and its copy succeeds, the copies made so
      far do not make it exist, and copying adds the dataset's file inside it. */
  lemma CopyStep(projectRoot: string, i: nat, before: set<string>, copyOk: string -> bool)
    requires i < 2
    ensures var dirs := Destinations(projectRoot);
            var done := CopyTargets(dirs[..i], before, copyOk);
            && CopyTargets(dirs[..i + 1], before, copyOk)
                 == done + (if dirs[i] in before && copyOk(dirs[i]) then [dirs[i]] else [])
            && (dirs[i] in before + CopiedFiles(done) <==> dirs[i] in before)
            && CopiedFiles(done + [dirs[i]]) == CopiedFiles(done) + {Paths.Join(dirs[i], CSV_FILE)}
  {
    var dirs := Destinations(projectRoot);
    var done := CopyTargets(dirs[..i], before, copyOk);
    assert dirs[..i + 1] == dirs[..i] + [dirs[i]];
    CopyTargetsSnoc(dirs[..i], dirs[i], before, copyOk);
    DestinationNotACopy(projectRoot, i, done);
  }

  /** Trying one more destination appends it to the copies when it exists and
      its copy succeeds. */
  lemma CopyTargetsSnoc(dirs: seq<string>, d: string, present: set<string>, copyOk: string -> bool)
    ensures CopyTargets(dirs + [d], present, copyOk)
              == CopyTargets(dirs, present, copyOk) + (if d in present && copyOk(d) then [d] else [])
  {
    if dirs != [] {
      assert (dirs + [d])[1..] == dirs[1..] + [d];
      CopyTargetsSnoc(dirs[1..], d, present, copyOk);
    }
  }
}

=== FILE: shading.dfy ===
/** The rule `visualize_tree` uses to fill a node box of the plotted tree: the
    colour of the majority class and a transparency that grows with purity.
    Class counts are integers here, computed on reals as numpy does on floats. */
module Shading {
  import opened Wrappers

  /** `np.sum` of the class counts of a node. */
  function Sum(counts: seq<nat>): (s: nat)
    ensures s == 0 <==> forall i | 0 <= i < |counts| :: counts[i] == 0
  {
    if counts == [] then 0 else Sum(counts[..|counts| - 1]) + counts[|counts| - 1]
  }

  /** `np.argmax`: the first index holding the largest count. */
  function ArgMax(counts: seq<nat>): (m: nat)
    requires counts != []
    ensures m < |counts|
    ensures forall j | 0 <= j < |counts| :: counts[j] <= counts[m]
    ensures forall j | 0 <= j < m :: counts[j] < counts[m]
  {
    if |counts| == 1 then 0
    else
      var m := ArgMax(counts[..|counts| - 1]);
      if counts[|counts| - 1] > counts[m] then |counts| - 1 else m
  }

  /** No single count exceeds the total. */
  lemma {:induction false} CountAtMostSum(counts: seq<nat>, i: nat)
    requires i < |counts|
    ensures counts[i] <= Sum(counts)
  {
    if i < |counts| - 1 {
      CountAtMostSum(counts[..|counts| - 1], i);
    }
  }

  /** The total is at most the number of classes times the largest count. */
  lemma {:induction false} SumAtMostWidthTimesMax(counts: seq<nat>, bound: nat)
    requires forall j | 0 <= j < |counts| :: counts[j] <= bound
    ensures Sum(counts) <= |counts| * bound
  {
    if counts != [] {
      var init := counts[..|counts| - 1];
      SumAtMostWidthTimesMax(init, bound);
      assert Sum(counts) == Sum(init) + counts[|counts| - 1];
      assert counts[|counts| - 1] <= bound;
      OneMoreTimes(|init|, bound);
    }
  }

  /** `(n + 1) * b == n * b + b`, kept apart from the facts about sums. */
  lemma OneMoreTimes(n: nat, b: nat)
    ensures (n + 1) * b == n * b + b
  {
  }

  /** A node with samples has a positive largest count. */
  lemma LargestCountPositive(counts: seq<nat>, m: nat)
    requires m < |counts| && Sum(counts) > 0
    requires forall j | 0 <= j < |counts| :: counts[j] <= counts[m]
    ensures counts[m] > 0
  {
    SumAtMostWidthTimesMax(counts, counts[m]);
  }

  /** The alpha channel for a node of the given purity: constant 0.6 up to
      purity 0.5, then rising linearly to 1.0 at purity 1. */
  function Alpha(purity: real): (alpha: real)
    ensures 0.0 <= purity <= 1.0 ==> 0.6 <= alpha <= 1.0
    ensures purity == 1.0 ==> alpha == 1.0
  {
    if purity > 0.5 then 0.6 + (purity - 0.5) * 0.8 else 0.6
  }

  /** A higher purity never gives a more transparent fill. */
  lemma AlphaMonotonic(p: real, q: real)
    requires p <= q
    ensures Alpha(p) <= Alpha(q)
  {
  }

  /** What one node with class counts is painted with. */
  datatype Shade = Shade(majority: nat, purity: real, alpha: real)

  /** The share `part / whole` of a node's samples, as a real. */
  function Share(part: nat, whole: nat): (q: real)
    requires 0 < part <= whole
    ensures 0.0 < q <= 1.0
    ensures q * (whole as real) == part as real
  {
    var q := part as real / whole as real;
    ScaleDown(q, 1.0, whole as real);
    q
  }

  /** The shading of one node, or None when its counts sum to 0 and the node is
      skipped. The colour index is the first class with the largest count
      (ArgMax), the purity is that class's share of the node's samples. */
  function NodeShade(counts: seq<nat>): (s: Option<Shade>)
    ensures s.None? <==> Sum(counts) == 0
    ensures s.Some? ==>
              && counts != []
              && s.value.majority == ArgMax(counts)
              && 0 < counts[s.value.majority] <= Sum(counts)
              && s.value.purity == Share(counts[s.value.majority], Sum(counts))
              && s.value.alpha == Alpha(s.value.purity)
              && 0.6 <= s.value.alpha <= 1.0
  {
    if Sum(counts) == 0 then None
    else
      assert counts != [];
      var m := ArgMax(counts);
      CountAtMostSum(counts, m);
      LargestCountPositive(counts, m);
      var purity := Share(counts[m], Sum(counts));
      Some(Shade(m, purity, Alpha(purity)))
  }

  /** Dividing both sides of `a * c <= b * c` by a positive `c`. */
  lemma ScaleDown(a: real, b: real, c: real)
    requires c > 0.0 && a * c <= b * c
    ensures a <= b
  {
  }

  /** A part that is at least half of the whole has a share of at least 0.5. */
  lemma ShareAtLeastHalf(part: nat, whole: nat)
    requires 0 < part <= whole <= 2 * part
    ensures Share(part, whole) >= 0.5
  {
    HalfOfWhole(Share(part, whole), whole as real, part as real);
  }

  /** A ratio `q = p / w` with `w <= 2 p` is at least one half. */
  lemma HalfOfWhole(q: real, w: real, p: real)
    requires w > 0.0 && w <= 2.0 * p && q * w == p
    ensures q >= 0.5
  {
    assert 0.5 * w <= q * w;
    ScaleDown(0.5, q, w);
  }

  /** With two classes the majority holds at least half of the samples. */
  lemma TwoClassPurityAtLeastHalf(counts: seq<nat>)
    requires |counts| == 2 && Sum(counts) > 0
    ensures NodeShade(counts).Some? && NodeShade(counts).value.purity >= 0.5
  {
    var s := NodeShade(counts).value;
    assert counts[..1][..0] == [];
    assert Sum(counts[..1]) == counts[0];
    assert Sum(counts) == counts[0] + counts[1];
    assert counts[0] <= counts[s.majority] && counts[1] <= counts[s.majority];
    ShareAtLeastHalf(counts[s.majority], Sum(counts));
  }
}

=== FILE: strings.dfy ===
/** Python's ordering of `str` values (lexicographic by code point) and the
    suffix test `str.endswith`, with the order facts the encoder relies on. */
module Strings {

  /** `a < b` on Python strings: the first differing code point decides, and a
      proper prefix comes first. */
  predicate Less(a: string, b: string): (r: bool)
    ensures r ==> a != b
    ensures |a| < |b| && a == b[..|a|] ==> r
  {
    if a == [] then b != []
    else if b == [] then false
    else a[0] < b[0] || (a[0] == b[0] && Less(a[1..], b[1..]))
  }

  lemma {:induction false} LessIrreflexive(a: string)
    ensures !Less(a, a)
  {
    if a != [] {
      LessIrreflexive(a[1..]);
    }
  }

  lemma {:induction false} LessTransitive(a: string, b: string, c: string)
    requires Less(a, b) && Less(b, c)
    ensures Less(a, c)
  {
    if a != [] && a[0] == b[0] && b[0] == c[0] {
      LessTransitive(a[1..], b[1..], c[1..]);
    }
  }

  lemma {:induction false} LessTotal(a: string, b: string)
    requires a != b
    ensures Less(a, b) || Less(b, a)
  {
    if a != [] && b != [] && a[0] == b[0] {
      assert a == [a[0]] + a[1..] && b == [b[0]] + b[1..];
      LessTotal(a[1..], b[1..]);
    }
  }

  lemma LessAsymmetric(a: string, b: string)
    requires Less(a, b)
    ensures !Less(b, a)
  {
    if Less(b, a) {
      LessTransitive(a, b, a);
      LessIrreflexive(a);
    }
  }

  /** The elements of a sequence, as a set. */
  function Elements<T>(s: seq<T>): set<T>
  {
    set x | x in s
  }

  lemma ElementsEmpty<T>(s: seq<T>)
    ensures Elements(s) == {} <==> s == []
  {
    if s != [] {
      assert s[0] in Elements(s);
    }
  }

  /** Strictly increasing: what `numpy.unique` returns for a column of strings. */
  ghost predicate StrictlySorted(s: seq<string>)
  {
    forall i, j | 0 <= i < j < |s| :: Less(s[i], s[j])
  }

  ghost predicate Distinct<T>(s: seq<T>)
  {
    forall i, j | 0 <= i < j < |s| :: s[i] != s[j]
  }

  lemma SortedIsDistinct(s: seq<string>)
    requires StrictlySorted(s)
    ensures Distinct(s)
  {
    forall i, j | 0 <= i < j < |s|
      ensures s[i] != s[j]
    {
      if s[i] == s[j] {
        LessIrreflexive(s[i]);
      }
    }
  }

  /** A sequence without repetitions has as many elements as its set. */
  lemma {:induction false} DistinctCardinality<T>(s: seq<T>)
    requires Distinct(s)
    ensures |Elements(s)| == |s|
  {
    if s != [] {
      assert Distinct(s[1..]);
      DistinctCardinality(s[1..]);
      assert Elements(s) == {s[0]} + Elements(s[1..]);
      assert s[0] !in Elements(s[1..]);
    }
  }

  /** `s.endswith(suffix)` */
  predicate EndsWith(s: string, suffix: string): (r: bool)
    ensures r ==> |suffix| <= |s|
    ensures r && suffix != [] ==> s[|s| - 1] == suffix[|suffix| - 1]
  {
    |suffix| <= |s| && s[|s| - |suffix|..] == suffix
  }
}

=== FILE: wrappers.dfy ===
/** Option and Result, the two failure-carrying datatypes the model uses for
    Python's `None` and for the exceptions the source raises. */
module Wrappers {

  datatype Option<+T> = None | Some(value: T)

  datatype Result<+R, +E> = Success(value: R) | Failure(error: E)
}
